=== FILE: README.md ===
# Teams membership ledger — a Dafny model

This project models the membership core of a "Teams" subscription service
for an online community. A paying leader gets a team with a fixed number of
seats and a shareable invite link. Members join, are removed, and have their
onboarding state reconciled against the community platform.

The core is a state machine over three relational tables and the community
platform's tags:

- `teams`: leader e-mail, billing references, access type, seat limit, status.
- `team_members`: team, e-mail, platform id, status, invite status.
- `invite_tokens`: token, team, used flag.
- The platform: a map from community-member id to an ordered tag list.

Each serverless handler is a pure function. The webhook, admission and
removal map `World(db, tags)` to an outcome and a new world. Recording an
invite view and sync touch only the tables and map `Tables` to `Tables`. The
dashboard returns no state at all. `System.Step` lifts all of them to
`World`. Calls the handlers make to code outside the model are parameters:

- the billing provider's customer e-mail;
- the random draws behind the invite token;
- the outcome of the team insert;
- the platform's look-ups by e-mail.

Modules:

| file | module | what it holds |
|---|---|---|
| `wrappers.dfy` | `Wrappers` | `Option`, and the handler outcomes `Outcome` and `Result` |
| `query.dfy` | `Query` | `Find`, `Count`, `Select`, the `.single()` lookup `Single`, bulk `Update`, and counting lemmas |
| `ledger.dfy` | `Ledger` | rows, tables, ASCII lower-casing, seat counts, and the table invariant `Valid` |
| `gateway.dfy` | `Gateway` | tag map, merge-add, destructive replace, FreeAccess downgrade, delete |
| `tokens.dfy` | `Tokens` | 8-character token generation from supplied draws |
| `webhook.dfy` | `Webhook` | subscription created/deleted handling and event dispatch |
| `invite.dfy` | `Invite` | token admission |
| `removal.dfy` | `Removal` | member removal |
| `inviteview.dfy` | `InviteView` | bulk invited → viewed |
| `sync.dfy` | `Sync` | invite-status reconciliation, as a function and as the handler's loop |
| `dashboard.dfy` | `Dashboard` | the leader's read-only seat dashboard |
| `system.dfy` | `System` | all requests applied in sequence |

Modelling conventions:

- Rows are never physically deleted, so a row's position in its
  append-only table is its primary key.
- A `.single()` lookup yields a row only when exactly one row matches;
  with no match or with several, the data is null.
- A missing request field is the empty string, or `None` for an id. Both
  are falsy in the handlers' checks.
- `Valid` collects what the tables keep between requests:
  - every token and member row refers to an existing team;
  - member e-mails are lower-cased;
  - a team has at most one row per e-mail;
  - no team has more active members than seats.

  Every transition preserves `Valid`. `System.Run` composes them.

The model follows the code as written:

- The duplicate check ignores the row's status, so a removed e-mail cannot
  join the same team again.
- Creation is not idempotent. A created event delivered twice makes two
  teams for one subscription. The deletion's `.single()` then finds
  nothing, so both teams stay active.
- Tokens are never marked used.
- `customer.subscription.updated` is acknowledged and ignored.
- The stored leader e-mail is not lower-cased, but the dashboard lower-cases
  its query. A leader whose billing e-mail holds a capital letter never
  sees the team.
- Sync takes every row whose invite status is not 'active', whatever its
  status, so a revoked row can still be activated.
- Removal deletes the platform member, while team deletion replaces the
  members' tags with FreeAccess.

## Model

| member | source | states |
|---|---|---|
| `Query.Single` | api/webhook.js:87-93 | A `.single()` lookup yields row i exactly when i is the one and only matching row; with zero or several matches it yields nothing |
| `Ledger.Lower` | api/invite.js:53 | Lower-casing keeps the length, leaves no upper-case letter, agrees with the input up to case, and fixes already lower-case strings |
| `Tokens.GenerateToken` | api/webhook.js:201-204 | A generated token has exactly 8 characters, each from the 36-character alphabet a-z0-9 |
| `Tokens.GenerateReachesEveryToken` | api/webhook.js:201-204 | Every 8-character string over the alphabet is produced by some valid draws |
| `Gateway.AddTag` | api/webhook.js:137-164 | After the merge the tag is present, the old list is an in-order prefix, at most that one tag is added, other members are untouched, an already-present tag leaves everything unchanged, and an unknown member is not written |
| `Gateway.AddTagIdempotent` | api/webhook.js:147-150 | Adding the same tag twice equals adding it once |
| `Gateway.ApplyFreeAccess` | api/webhook.js:169-189 | The resolved member's entire tag list becomes exactly [228295], the stored id winning over the e-mail look-up; with no stored id and no look-up result nothing changes |
| `Gateway.ResolveId` | api/webhook.js:170-171 | A row's stored platform id, when it has one, is used; only a row without one falls back to the e-mail look-up |
| `Gateway.AddTagByEmail` | api/webhook.js:192-199 | With no member found nothing changes; otherwise the result is exactly the merge `AddTag` of the tag onto the found member, so it gains that one tag (or nothing if already present), keeps its old tags as a prefix, and nobody else changes |
| `Gateway.DeleteMember` | api/remove-member.js:33-41 | The deleted member disappears from the platform and every other member keeps its tags |
| `Webhook.Created` | api/webhook.js:47-80 | A non-team product or a failed team insert changes nothing. Otherwise exactly one team is appended with the customer e-mail as given, seat limit 5, access 'subscription' and status 'active'. Exactly one unused 8-character token row for that team is appended, members are untouched, and the leader tag is merged onto the leader found by e-mail |
| `Webhook.CreatedPreservesValid` | api/webhook.js:56-74 | Creating a team keeps every table invariant; the new team starts with no active member |
| `Webhook.DowngradeAll` | api/webhook.js:105-109 | Downgrading rows in turn leaves exactly the platform members some row resolves to with [228295] and every other member as it was |
| `Webhook.Deleted` | api/webhook.js:82-121 | A non-team product, or no unique team for the subscription, changes nothing. Otherwise that team and every row of it, whatever its status, become 'revoked'; other teams, other rows and tokens are untouched; only members reached by the team's previously active rows are downgraded |
| `Webhook.DeletedDowngradesOnlyActive` | api/webhook.js:96-109 | A platform member gets FreeAccess on deletion iff a row of the team that was active before the revocation resolves to it |
| `Webhook.DeletedEmptiesTeam` | api/webhook.js:112-114 | After the deletion the revoked team has no active member row |
| `Webhook.DeletedPreservesValid` | api/webhook.js:112-118 | Revoking a team keeps every table invariant (its active count drops to 0, as `Webhook.DeletedEmptiesTeam` states) |
| `Webhook.DeletedIdempotent` | api/webhook.js:87-118 | Applying the same deletion twice equals applying it once |
| `Webhook.DuplicateCreatedBlocksDeletion` | api/webhook.js:56-93 | Two successful created events for one new subscription make two active teams, after which the deletion event changes nothing |
| `Webhook.Handle` | api/webhook.js:24-45 | An unverified event is rejected with no change. Every verified event is acknowledged. Kinds other than created/deleted, and events whose first item is not the team product, change nothing. Created and deleted events dispatch to their handlers |
| `Webhook.HandlePreservesValid` | api/webhook.js:38-42 | Every webhook event keeps every table invariant |
| `Invite.SlugFor` | api/invite.js:101 | Access 'subscription' tags the member 'team-member-subscription'; any other access tags it 'team-member-course' |
| `Invite.AddCircleMember` | api/invite.js:78-116 | The stored id is whatever the invitation returned. With no id the platform is untouched; with an id that member exists afterwards, carries the access slug, keeps its old tags as a prefix, gains no tag other than the slug (at most one entry), and nobody else changes |
| `Invite.AddCircleMemberIdempotent` | api/invite.js:96-113 | Inviting the same e-mail a second time leaves the platform as the first invitation left it and returns the same id |
| `Invite.Admit` | api/invite.js:8-76 | A missing field gives MissingField. Without exactly one unused matching token row the result is InvalidToken. Every error leaves ledger and platform unchanged. Success requires an active team with a free seat; it appends exactly one row (lower-cased e-mail, status 'active', invite status 'invited' if added by the leader, else 'active'), leaves teams and tokens (so the used flag) unchanged, and makes only the invitation's platform change |
| `Invite.DuplicateLookup` | api/invite.js:48-58 | With one row per e-mail and team, the duplicate lookup finds a row iff some row of the team has the e-mail, revoked rows included |
| `Invite.AdmitDecision` | api/invite.js:31-58 | With a valid token the outcome is, in this order, TeamInactive iff the team is not active, SeatsFull iff active members ≥ seat limit, AlreadyMember iff any row of the team has the lower-cased e-mail, otherwise success |
| `Invite.AdmitPreservesValid` | api/invite.js:37-70 | An admission keeps every table invariant, in particular active members ≤ seat limit and one row per e-mail |
| `Invite.AdmitTakesOneSeat` | api/invite.js:37-70 | A successful admission raises the team's active count by exactly one, to at most the seat limit |
| `Invite.AdmitTwiceRejected` | api/invite.js:37-58 | Repeating a successful admission fails with SeatsFull or AlreadyMember and changes nothing |
| `Invite.TokenAdmitsAgain` | api/invite.js:72-73 | After an admission the same token admits another non-empty e-mail whenever a seat is left and the team holds no row for it |
| `Removal.RemoveMember` | api/remove-member.js:8-50 | A missing team id or e-mail gives MissingField. Without exactly one active row of the team with the lower-cased e-mail the result is MemberNotFound. Errors change nothing. On success only that row's status becomes 'revoked' (invite status and all else kept); the platform member with that id is deleted iff the row had one, and every other platform member keeps its tags |
| `Removal.RemoveFreesOneSeat` | api/remove-member.js:20-47 | A successful removal lowers the team's active count by exactly one |
| `Removal.RemovePreservesValid` | api/remove-member.js:43-47 | A removal keeps every table invariant |
| `Removal.RemovalBlocksReadmission` | api/invite.js:48-58 | After a removal the same e-mail, presented with the active team's valid token, is refused with AlreadyMember and nothing changes |
| `InviteView.RecordView` | api/invite-view.js:5-36 | A missing token gives MissingToken. A token without exactly one row, used or not, gives UnknownToken. Errors change nothing. Success turns every 'invited' row of the token's team into 'viewed' and leaves every other row, other invite statuses, every status, teams and tokens unchanged |
| `InviteView.NoInvitedLeft` | api/invite-view.js:29-33 | After a view no row of the token's team is 'invited' |
| `InviteView.RecordViewIdempotent` | api/invite-view.js:29-33 | Recording a view twice equals recording it once |
| `InviteView.RecordViewPreservesValid` | api/invite-view.js:29-33 | Recording a view keeps every table invariant |
| `Sync.SyncStatus` | api/sync-status.js:6-50 | A missing team id gives an error and no change. Otherwise every row keeps team, e-mail and status. A candidate (invite status not 'active', any status) whose first platform match is confirmed gets invite status 'active' and the platform id; all other rows are unchanged. The count is at most the number of candidates |
| `Sync.RunSync` | api/sync-status.js:22-49 | The handler's loop over the rows, looking up each candidate and counting updates, yields exactly the count and tables of SyncStatus |
| `Sync.SyncCountsChanges` | api/sync-status.js:36-42 | The returned count equals the number of rows the run changed |
| `Sync.SyncIdempotent` | api/sync-status.js:13-42 | With the same look-up answers a second run changes nothing and returns 0 |
| `Sync.UnconfirmedRowUnchanged` | api/sync-status.js:34-46 | A row whose look-up failed, found nobody, or found an unconfirmed member is unchanged |
| `Sync.SyncPreservesValid` | api/sync-status.js:38-41 | A sync keeps every table invariant |
| `Dashboard.EmailsWhere` | api/dashboard.js:61-76 | The k-th listed e-mail is the e-mail of the k-th selected row in table order, so there is one e-mail per selected row and the set of e-mails is exactly that of the selected rows |
| `Dashboard.InviteLink` | api/dashboard.js:62-72 | With no token row for the team there is no link; otherwise the link embeds the team's first token, or is absent if that token is empty |
| `Dashboard.ViewTeam` | api/dashboard.js:60-78 | seatsUsed is the number of active rows of the team, seatsUsed + seatsRemaining = seatLimit, the member list holds the active rows' e-mails one per row in table order, and the invite link is as InviteLink states |
| `Dashboard.Dashboard` | api/dashboard.js:5-81 | MissingEmail is returned iff the e-mail is missing. Otherwise NoActiveTeams is returned iff no active team has the lower-cased e-mail as leader. On success exactly those teams are listed, each once, in table order, each as ViewTeam. No tables are returned, so nothing changes |
| `Dashboard.SeatsAddUp` | api/dashboard.js:68-69 | Every listed team's used and remaining seats add up to its seat limit |
| `Dashboard.MixedCaseLeaderHidden` | api/dashboard.js:47 | A team whose stored leader e-mail holds an upper-case letter is listed for no query |
| `System.SeatLimitAlwaysHolds` | api/invite.js:37-46 | From empty tables, after any sequence of requests, every team's active count is at most its seat limit |
| `System.MixedCaseLeaderNeverSeesTeam` | api/webhook.js:52-57 | A team created for a billing e-mail with an upper-case letter never appears on any dashboard query |

## Left out

- Gateway.AddTag: the model assumes the platform read returns the member's current tags. In the source the merge reads `member.member_tags` from the GET at api/webhook.js:138-143 and falls back to `[]` when that field is absent. An error body, such as a rate-limit or auth reply, therefore makes the PATCH at api/webhook.js:152-162 write the single tag and wipe every other tag.
- Invite.Admit: the model assumes the seat count (api/invite.js:38-44) and the duplicate lookup (api/invite.js:49-56) answer. Neither error is checked. A failed count leaves `count` null, and `null >= seat_limit` is false, so the seat check passes. A failed duplicate lookup leaves `existingMember` null, so that check passes too. In both cases the row is inserted.
- System.SeatLimitAlwaysHolds: the bound holds only when every seat-count query answers. In the source, a failed count at api/invite.js:38-44 lets an admission through a full team.
- Webhook.Deleted: the model assumes the read of the team's active members (api/webhook.js:96-100) answers. In the source a failed read leaves `members` null, so every downgrade is skipped, while the revocations at api/webhook.js:112-118 still run. Those members keep their paid tags.
- Webhook.Handle: a platform call that rejects (a network failure, or a body that is not JSON) is not modelled. Nothing in api/webhook.js catches it, so in the source the handler aborts without answering 200 (api/webhook.js:44). The model always answers `Received` to a verified event.
- Webhook.Deleted: the model assumes every platform call in the downgrade loop (api/webhook.js:106-108) returns. In the source a rejection there aborts the handler: members downgraded so far keep [228295] while the team and its rows stay 'active', since the revocations at api/webhook.js:112-118 never run.
- Webhook.Created: the model assumes the leader-tag call at api/webhook.js:79 returns. In the source a rejection there aborts the handler after the team and token rows are already inserted.
- Invite.Admit: a rejecting platform call at api/invite.js:61 or 96-112 aborts the handler before the insert at api/invite.js:64-70, so no row is added. The model always appends the row on success.
- Removal.RemoveMember: a rejecting delete call at api/remove-member.js:34-40 aborts the handler before the revocation at api/remove-member.js:44-47. The model always revokes. Only the sync loop catches such failures (api/sync-status.js:44-46), and only there is a failed call modelled, as `Sync.Lookup.Unreachable`.
- Webhook.Created: the token insert at api/webhook.js:71-74 writes only the team and the token. The model gives the new row `used == false`, which assumes the column defaults to false. If it defaulted to null, the `used = false` filter at api/invite.js:24 would match no token.
- Signature verification (api/webhook.js:31-36) is an input: a failed check arrives as `None`. `customers.retrieve` (api/webhook.js:51) is the `emailOf` oracle.
- `Math.random` is replaced by eight supplied draws in [0, 1).
- Transport is not modelled: HTTP method and 405 checks, CORS headers, status codes, response messages, `console.log`, environment variables and `SITE_URL`. The dashboard's invite link is modelled as the token it embeds.
- Store failures the handlers branch on are not modelled: the team-list error (api/dashboard.js:50-53) and the member-list error (api/sync-status.js:19). The team insert failure (api/webhook.js:65-68) is modelled as an input.
- Writes whose errors the code ignores always succeed in the model: the token insert, the member insert and every update.
- A token row whose team is missing is excluded by `Ledger.TokensReferTeams`, the store's foreign key. The join in api/invite.js:22 then always finds the team, so the crash on a null team is not modelled.
- The platform's JSON response shapes are abstracted into oracle answers. The e-mail look-up in webhook.js reads `records[0].id`, while sync-status.js reads `community_members[0]`; api/webhook.js:131 notes the platform returns `records`. The sync oracle stands for whatever the sync handler reads, and the model does not decide which field the platform fills.
- The invitation's `PUT .../member_tags` with `tag_slugs` (api/invite.js:102-112) is modelled as a non-destructive add of a slug tag. The platform's exact semantics for that endpoint are not part of this model.
- A PATCH to a member the platform does not know is modelled as changing nothing.
- Rows embedded in a query (the dashboard's members and tokens, the teams it lists, the rows a deletion downgrades) are taken in table order; the store itself promises no order.
- Lower-casing covers the ASCII letters only; JavaScript's full Unicode `toLowerCase` is not modelled.
- JavaScript falsiness beyond absent or empty fields is not modelled, such as a team id of 0 or a platform id of 0.
- Dashboard fields that no decision reads are not modelled: `joined_at`, `course_space_id`, `converted_from_individual` and `created_at`.
- Concurrency is not modelled, including the check-then-insert race between admissions (api/invite.js:37-70). Requests run one at a time.
- Platform-side automations triggered by tags (api/webhook.js:102-104, 166-168) are external workflows.
- api/test-tags.js and api/get-tags.js are fixed probes of the platform API with no logic.

=== FILE: dashboard.dfy ===
/** The leader's dashboard: a read-only projection of every active team
    whose stored leader e-mail equals the lower-cased query, with its seat
    usage, its invite token and its active members. It returns no tables, so
    it cannot change the ledger. */
module Dashboard {
  import opened Wrappers
  import opened Query
  import opened Ledger

  datatype TeamView = TeamView(
    id: TeamId,
    access: AccessType,
    seatLimit: nat,
    seatsUsed: nat,
    seatsRemaining: int,
    status: Status,
    inviteToken: Option<string>,
    members: seq<string>)

  datatype DashboardError = MissingEmail | NoActiveTeams

  /** The team query: led by the e-mail as stored, and active. */
  function LedBy(email: string): Team -> bool
  {
    (t: Team) => t.leaderEmail == email && t.status == Active
  }

  function TokenOf(t: TeamId): InviteToken -> bool
  {
    (k: InviteToken) => k.team == t
  }

  /** Row `k` is the team's first token row. */
  predicate FirstToken(db: Tables, t: TeamId, k: int)
  {
    0 <= k < |db.tokens| && db.tokens[k].team == t && forall j :: 0 <= j < k ==> db.tokens[j].team != t
  }

  /** The e-mails of the rows `p` selects, in table order. */
  function EmailsWhere(rows: seq<Member>, p: Member -> bool): (emails: seq<string>)
    ensures |emails| == Count(rows, p)
    ensures forall e :: e in emails <==> exists i :: 0 <= i < |rows| && p(rows[i]) && rows[i].email == e
    ensures forall k :: 0 <= k < |emails| ==> emails[k] == rows[Find(rows, p)[k]].email
    decreases |rows|
  {
    if |rows| == 0 then []
    else
      var n := |rows| - 1;
      var init := EmailsWhere(rows[..n], p);
      assert forall i :: 0 <= i < n ==> rows[..n][i] == rows[i];
      assert Find(rows, p) == Find(rows[..n], p) + (if p(rows[n]) then [n] else []);
      init + (if p(rows[n]) then [rows[n].email] else [])
  }

  /** The token the invite link embeds: the team's first token, unless
      there is none or it is empty. */
  function InviteLink(db: Tables, t: TeamId): (link: Option<string>)
    ensures (forall k :: 0 <= k < |db.tokens| ==> db.tokens[k].team != t) ==> link.None?
    ensures forall k :: FirstToken(db, t, k) ==>
      link == if db.tokens[k].token == "" then None else Some(db.tokens[k].token)
  {
    var found := Find(db.tokens, TokenOf(t));
    assert forall k :: FirstToken(db, t, k) ==> |found| > 0 && found[0] == k by {
      forall k | FirstToken(db, t, k)
        ensures |found| > 0 && found[0] == k
      {
        assert k in found;
        assert TokenOf(t)(db.tokens[found[0]]);
      }
    }
    if |found| > 0 && db.tokens[found[0]].token != "" then Some(db.tokens[found[0]].token) else None
  }

  function ViewTeam(db: Tables, t: TeamId): (v: TeamView)
    requires t < |db.teams|
    ensures v.id == t && v.access == db.teams[t].access && v.status == db.teams[t].status
    ensures v.seatLimit == db.teams[t].seatLimit
    ensures v.seatsUsed == ActiveCount(db, t)
    ensures v.seatsUsed + v.seatsRemaining == v.seatLimit
    ensures |v.members| == v.seatsUsed
    ensures forall e :: e in v.members <==>
      exists i :: 0 <= i < |db.members| && ActiveIn(t)(db.members[i]) && db.members[i].email == e
    ensures forall k :: 0 <= k < |v.members| ==> v.members[k] == db.members[Find(db.members, ActiveIn(t))[k]].email
    ensures (forall k :: 0 <= k < |db.tokens| ==> db.tokens[k].team != t) ==> v.inviteToken.None?
    ensures forall k :: FirstToken(db, t, k) ==>
      v.inviteToken == if db.tokens[k].token == "" then None else Some(db.tokens[k].token)
  {
    var team := db.teams[t];
    var used := ActiveCount(db, t);
    TeamView(t, team.access, team.seatLimit, used, team.seatLimit - used, team.status,
             InviteLink(db, t), EmailsWhere(db.members, ActiveIn(t)))
  }

  /** One view per listed team, in the order given. */
  function Views(db: Tables, ids: seq<nat>): (views: seq<TeamView>)
    requires forall k :: 0 <= k < |ids| ==> ids[k] < |db.teams|
    ensures |views| == |ids|
    ensures forall k :: 0 <= k < |ids| ==> views[k] == ViewTeam(db, ids[k]) && views[k].id == ids[k]
  {
    seq(|ids|, k requires 0 <= k < |ids| => ViewTeam(db, ids[k]))
  }

  function Dashboard(db: Tables, email: string): (r: Result<seq<TeamView>, DashboardError>)
    ensures email == "" <==> r == Err(MissingEmail)
    ensures email != "" ==>
      (r == Err(NoActiveTeams) <==> forall t :: 0 <= t < |db.teams| ==> !LedBy(Lower(email))(db.teams[t]))
    ensures r.Ok? ==> forall v :: v in r.value ==>
      v.id < |db.teams| && LedBy(Lower(email))(db.teams[v.id]) && v == ViewTeam(db, v.id)
    ensures r.Ok? ==> forall t :: 0 <= t < |db.teams| && LedBy(Lower(email))(db.teams[t]) ==>
      ViewTeam(db, t) in r.value
    ensures r.Ok? ==> |r.value| == Count(db.teams, LedBy(Lower(email)))
    ensures r.Ok? ==> forall k, l :: 0 <= k < l < |r.value| ==> r.value[k].id < r.value[l].id
  {
    if email == "" then Err(MissingEmail)
    else
      var ids := Find(db.teams, LedBy(Lower(email)));
      if |ids| == 0 then Err(NoActiveTeams)
      else
        var views := Views(db, ids);
        assert LedBy(Lower(email))(db.teams[ids[0]]);
        assert forall t :: 0 <= t < |db.teams| && LedBy(Lower(email))(db.teams[t]) ==> ViewTeam(db, t) in views by {
          forall t | 0 <= t < |db.teams| && LedBy(Lower(email))(db.teams[t])
            ensures ViewTeam(db, t) in views
          {
            assert t in ids;
            var k :| 0 <= k < |ids| && ids[k] == t;
            assert views[k] == ViewTeam(db, t);
          }
        }
        Ok(views)
  }

  /** Every listed team's used and remaining seats add up to its limit. */
  lemma SeatsAddUp(db: Tables, email: string)
    requires Dashboard(db, email).Ok?
    ensures forall v :: v in Dashboard(db, email).value ==> v.seatsUsed + v.seatsRemaining == v.seatLimit
  {
  }

  /** The team query lower-cases the e-mail but the stored leader e-mail is
      kept as the billing provider gave it: a team whose leader e-mail holds
      an upper-case letter is never listed, whatever e-mail is asked for. */
  lemma MixedCaseLeaderHidden(db: Tables, email: string, t: TeamId)
    requires t < |db.teams| && !IsLower(db.teams[t].leaderEmail)
    ensures Dashboard(db, email).Ok? ==> forall v :: v in Dashboard(db, email).value ==> v.id != t
  {
  }
}

=== FILE: gateway.dfy ===
/** The community platform as the handlers see it: the members that exist
    there, each with an ordered tag list, and the tag operations the handlers
    perform on it. Look-ups by e-mail are answered by oracle functions that
    the caller supplies. */
module Gateway {
  import opened Wrappers
  import opened Ledger

  datatype Tag = TagNumber(number: nat) | TagSlug(slug: string)

  /** The platform's members, each with its tag list in order. */
  type Tags = map<CircleId, seq<Tag>>

  /** `longer` keeps every tag of `list`, in order, as its prefix. */
  predicate Extends(list: seq<Tag>, longer: seq<Tag>)
  {
    |list| <= |longer| && longer[..|list|] == list
  }

  /** The state every handler works on: the ledger and the platform's tags. */
  datatype World = World(db: Tables, tags: Tags)

  /** Marks a team leader. */
  const TeamsLeaderTag: Tag := TagNumber(227715)

  /** Starts the platform's downgrade automation for a removed member. */
  const FreeAccessTag: Tag := TagNumber(228295)

  /** Non-destructive add: read the member's tags, and write back the old list
      with the tag appended unless it is already there. The write replaces the
      whole list, so the read is what keeps the other tags. A member the
      platform does not know cannot be written. */
  function AddTag(tags: Tags, id: CircleId, tag: Tag): (r: Tags)
    ensures r.Keys == tags.Keys
    ensures forall x :: x in tags && x != id ==> r[x] == tags[x]
    ensures id in tags ==> tag in r[id]
    ensures id in tags ==> Extends(tags[id], r[id]) && |r[id]| <= |tags[id]| + 1
    ensures id in tags ==> forall g :: g in r[id] ==> g in tags[id] || g == tag
    ensures id in tags && tag in tags[id] ==> r == tags
  {
    if id !in tags || tag in tags[id] then tags
    else tags[id := tags[id] + [tag]]
  }

  /** Adding a tag twice is adding it once. */
  lemma AddTagIdempotent(tags: Tags, id: CircleId, tag: Tag)
    ensures AddTag(AddTag(tags, id, tag), id, tag) == AddTag(tags, id, tag)
  {
  }

  /** Destructive write: the member's whole tag list becomes `list`. */
  function ReplaceTags(tags: Tags, id: CircleId, list: seq<Tag>): (r: Tags)
    ensures r.Keys == tags.Keys
    ensures forall x :: x in tags && x != id ==> r[x] == tags[x]
    ensures id in tags ==> r[id] == list
  {
    if id in tags then tags[id := list] else tags
  }

  /** The member a row stands for on the platform: the stored identifier if
      the row has one, else whatever the e-mail look-up returns. */
  function ResolveId(stored: Option<CircleId>, email: string, lookup: string -> Option<CircleId>): (r: Option<CircleId>)
    ensures stored.Some? ==> r == stored
    ensures stored.None? ==> r == lookup(email)
  {
    if stored.Some? then stored else lookup(email)
  }

  /** Downgrade one member: replace all of its tags with the FreeAccess tag. */
  function ApplyFreeAccess(tags: Tags, email: string, stored: Option<CircleId>,
                           lookup: string -> Option<CircleId>): (r: Tags)
    ensures r.Keys == tags.Keys
    ensures forall x :: x in tags ==>
      r[x] == (if ResolveId(stored, email, lookup) == Some(x) then [FreeAccessTag] else tags[x])
    ensures stored.None? && lookup(email).None? ==> r == tags
  {
    match ResolveId(stored, email, lookup)
    case None => tags
    case Some(id) => ReplaceTags(tags, id, [FreeAccessTag])
  }

  /** Add a tag to the member an e-mail look-up finds; nothing when it finds none. */
  function AddTagByEmail(tags: Tags, email: string, tag: Tag, lookup: string -> Option<CircleId>): (r: Tags)
    ensures r.Keys == tags.Keys
    ensures lookup(email).None? ==> r == tags
    ensures forall x :: x in tags && lookup(email) != Some(x) ==> r[x] == tags[x]
    ensures lookup(email).Some? && lookup(email).value in tags ==>
      tag in r[lookup(email).value] && Extends(tags[lookup(email).value], r[lookup(email).value])
    ensures lookup(email).Some? ==> r == AddTag(tags, lookup(email).value, tag)
  {
    match lookup(email)
    case None => tags
    case Some(id) => AddTag(tags, id, tag)
  }

  /** Hard removal of a member from the platform. */
  function DeleteMember(tags: Tags, id: CircleId): (r: Tags)
    ensures r.Keys == tags.Keys - {id}
    ensures forall x :: x in r ==> r[x] == tags[x]
  {
    tags - {id}
  }
}

=== FILE: invite.dfy ===
/** Admission with an invite token. The checks run in a fixed order (missing
    field, invalid token, inactive team, full team, existing row) and every
    failure leaves the ledger and the platform untouched. On success the
    e-mail is invited to the community, tagged for the team's access type
    when the platform returns an identifier, and one member row is appended.
    The token is never marked used, so one link admits any number of
    e-mails. The platform's answer to the invitation is supplied by the
    caller. */
module Invite {
  import opened Wrappers
  import opened Query
  import opened Ledger
  import opened Gateway

  datatype AdmitError = MissingField | InvalidToken | TeamInactive | SeatsFull | AlreadyMember

  const SubscriptionSlug: string := "team-member-subscription"
  const CourseSlug: string := "team-member-course"

  /** The token lookup: the token's row, provided it is not used. */
  function UnusedToken(token: string): InviteToken -> bool
  {
    (k: InviteToken) => k.token == token && !k.used
  }

  /** The duplicate lookup: any row of the team with the e-mail, whatever its status. */
  function WithEmail(t: TeamId, email: string): Member -> bool
  {
    (m: Member) => m.team == t && m.email == email
  }

  /** The tag a newly admitted member receives. */
  function SlugFor(access: AccessType): (slug: string)
    ensures access == SubscriptionAccess ==> slug == SubscriptionSlug
    ensures access != SubscriptionAccess ==> slug == CourseSlug
  {
    if access == SubscriptionAccess then SubscriptionSlug else CourseSlug
  }

  /** Invite the e-mail to the community (which yields the existing member if
      there is one) and, when an identifier comes back, add the team's tag.
      Returns the platform's tags and the identifier to store, if any. */
  function AddCircleMember(tags: Tags, email: string, access: AccessType,
                           invite: string -> Option<CircleId>): (r: (Tags, Option<CircleId>))
    ensures r.1 == invite(email)
    ensures invite(email).None? ==> r.0 == tags
    ensures invite(email).Some? ==>
      var id := invite(email).value;
      && r.0.Keys == tags.Keys + {id}
      && TagSlug(SlugFor(access)) in r.0[id]
      && (id in tags ==> Extends(tags[id], r.0[id]))
      && |r.0[id]| <= (if id in tags then |tags[id]| else 0) + 1
      && (forall g :: g in r.0[id] ==> (id in tags && g in tags[id]) || g == TagSlug(SlugFor(access)))
      && (forall x :: x in tags && x != id ==> r.0[x] == tags[x])
  {
    match invite(email)
    case None => (tags, None)
    case Some(id) =>
      var joined := if id in tags then tags else tags[id := []];
      (AddTag(joined, id, TagSlug(SlugFor(access))), Some(id))
  }

  /** Inviting the same e-mail again leaves the platform as the first
      invitation left it: the member exists and already carries the slug. */
  lemma AddCircleMemberIdempotent(tags: Tags, email: string, access: AccessType,
                                  invite: string -> Option<CircleId>)
    ensures var once := AddCircleMember(tags, email, access, invite).0;
      AddCircleMember(once, email, access, invite) == (once, invite(email))
  {
    var once := AddCircleMember(tags, email, access, invite).0;
    if invite(email).Some? {
      var id := invite(email).value;
      assert id in once && TagSlug(SlugFor(access)) in once[id];
    }
  }

  /** The row a successful admission appends. */
  function NewMember(t: TeamId, email: string, circleId: Option<CircleId>, addedByLeader: bool): Member
  {
    Member(t, Lower(email), circleId, Active, if addedByLeader then Invited else InviteActive)
  }

  function Admit(w: World, token: string, email: string, addedByLeader: bool,
                 invite: string -> Option<CircleId>): (r: (Outcome<AdmitError>, World))
    requires TokensReferTeams(w.db)
    ensures r.0.Fail? ==> r.1 == w
    ensures r.0 == Fail(MissingField) <==> token == "" || email == ""
    ensures r.0 == Fail(InvalidToken) <==>
      token != "" && email != "" && forall k :: !Unique(w.db.tokens, UnusedToken(token), k)
    ensures r.0 == Pass ==> exists k :: (Unique(w.db.tokens, UnusedToken(token), k) &&
      var t := w.db.tokens[k].team;
      && w.db.teams[t].status == Active
      && ActiveCount(w.db, t) < w.db.teams[t].seatLimit
      && r.1.db.teams == w.db.teams
      && r.1.db.tokens == w.db.tokens
      && r.1.db.members == w.db.members + [NewMember(t, email, invite(email), addedByLeader)]
      && r.1.tags == AddCircleMember(w.tags, email, w.db.teams[t].access, invite).0)
  {
    if token == "" || email == "" then (Fail(MissingField), w)
    else
      match Single(w.db.tokens, UnusedToken(token))
      case None => (Fail(InvalidToken), w)
      case Some(k) =>
        var t := w.db.tokens[k].team;
        var team := w.db.teams[t];
        if team.status != Active then (Fail(TeamInactive), w)
        else if ActiveCount(w.db, t) >= team.seatLimit then (Fail(SeatsFull), w)
        else if Single(w.db.members, WithEmail(t, Lower(email))).Some? then (Fail(AlreadyMember), w)
        else
          var (tags, circleId) := AddCircleMember(w.tags, email, team.access, invite);
          var row := NewMember(t, email, circleId, addedByLeader);
          (Pass, World(w.db.(members := w.db.members + [row]), tags))
  }

  /** With one row per e-mail and team, the duplicate lookup finds a row
      exactly when some row of the team holds the e-mail. */
  lemma DuplicateLookup(db: Tables, t: TeamId, email: string)
    requires OneRowPerEmail(db)
    ensures Single(db.members, WithEmail(t, email)).Some? <==>
      exists i :: 0 <= i < |db.members| && db.members[i].team == t && db.members[i].email == email
  {
    if exists i :: 0 <= i < |db.members| && db.members[i].team == t && db.members[i].email == email {
      var i :| 0 <= i < |db.members| && db.members[i].team == t && db.members[i].email == email;
      assert Unique(db.members, WithEmail(t, email), i);
    }
  }

  /** Which error an admission with a valid token reports, in the order the
      checks run: an inactive team, then a full team (counting only active
      rows), then any existing row of the team with the lower-cased e-mail,
      revoked rows included. */
  lemma AdmitDecision(w: World, token: string, email: string, addedByLeader: bool,
                      invite: string -> Option<CircleId>, k: nat)
    requires Valid(w.db)
    requires token != "" && email != ""
    requires Unique(w.db.tokens, UnusedToken(token), k)
    ensures var t := w.db.tokens[k].team;
      var team := w.db.teams[t];
      var taken := exists i :: 0 <= i < |w.db.members| && w.db.members[i].team == t && w.db.members[i].email == Lower(email);
      var out := Admit(w, token, email, addedByLeader, invite).0;
      && (out == Fail(TeamInactive) <==> team.status != Active)
      && (out == Fail(SeatsFull) <==> team.status == Active && ActiveCount(w.db, t) >= team.seatLimit)
      && (out == Fail(AlreadyMember) <==> team.status == Active && ActiveCount(w.db, t) < team.seatLimit && taken)
      && (out == Pass <==> team.status == Active && ActiveCount(w.db, t) < team.seatLimit && !taken)
  {
    DuplicateLookup(w.db, w.db.tokens[k].team, Lower(email));
  }

  /** A successful admission keeps every invariant of the ledger; in
      particular the team it fills stays within its seat limit. */
  lemma AdmitPreservesValid(w: World, token: string, email: string, addedByLeader: bool,
                            invite: string -> Option<CircleId>)
    requires Valid(w.db)
    ensures Valid(Admit(w, token, email, addedByLeader, invite).1.db)
  {
    var r := Admit(w, token, email, addedByLeader, invite);
    if r.0 == Pass {
      var k :| Unique(w.db.tokens, UnusedToken(token), k);
      var t := w.db.tokens[k].team;
      var row := NewMember(t, email, invite(email), addedByLeader);
      assert Single(w.db.tokens, UnusedToken(token)) == Some(k);
      DuplicateLookup(w.db, t, Lower(email));
      AppendPreservesValid(w.db, row);
    }
  }

  /** A successful admission uses up one seat of its team. */
  lemma AdmitTakesOneSeat(w: World, token: string, email: string, addedByLeader: bool,
                          invite: string -> Option<CircleId>, k: nat)
    requires TokensReferTeams(w.db)
    requires Unique(w.db.tokens, UnusedToken(token), k)
    requires Admit(w, token, email, addedByLeader, invite).0 == Pass
    ensures var t := w.db.tokens[k].team;
      ActiveCount(Admit(w, token, email, addedByLeader, invite).1.db, t) == ActiveCount(w.db, t) + 1
      <= w.db.teams[t].seatLimit
  {
    var t := w.db.tokens[k].team;
    CountAppend(w.db.members, NewMember(t, email, invite(email), addedByLeader), ActiveIn(t));
  }

  /** Repeating a successful admission is refused, and changes nothing: the
      first one either filled the last seat or left a row with the e-mail. */
  lemma AdmitTwiceRejected(w: World, token: string, email: string, addedByLeader: bool,
                           invite: string -> Option<CircleId>)
    requires Valid(w.db)
    requires Admit(w, token, email, addedByLeader, invite).0 == Pass
    ensures var w1 := Admit(w, token, email, addedByLeader, invite).1;
      var again := Admit(w1, token, email, addedByLeader, invite);
      (again.0 == Fail(SeatsFull) || again.0 == Fail(AlreadyMember)) && again.1 == w1
  {
    var w1 := Admit(w, token, email, addedByLeader, invite).1;
    var k :| Unique(w.db.tokens, UnusedToken(token), k);
    var t := w.db.tokens[k].team;
    AdmitPreservesValid(w, token, email, addedByLeader, invite);
    assert w1.db.members[|w.db.members|].team == t && w1.db.members[|w.db.members|].email == Lower(email);
    AdmitDecision(w1, token, email, addedByLeader, invite, k);
  }

  /** The token survives an admission: once it has admitted one e-mail it
      admits another whenever a seat is left and the team holds no row for
      the new e-mail. */
  lemma TokenAdmitsAgain(w: World, token: string, email: string, other: string, addedByLeader: bool,
                         invite: string -> Option<CircleId>)
    requires Valid(w.db)
    requires Admit(w, token, email, addedByLeader, invite).0 == Pass
    requires other != ""
    ensures var w1 := Admit(w, token, email, addedByLeader, invite).1;
      forall k :: Unique(w1.db.tokens, UnusedToken(token), k) ==>
        var t := w1.db.tokens[k].team;
        ActiveCount(w1.db, t) < w1.db.teams[t].seatLimit &&
        (forall i :: 0 <= i < |w1.db.members| && w1.db.members[i].team == t ==> w1.db.members[i].email != Lower(other))
        ==> Admit(w1, token, other, addedByLeader, invite).0 == Pass
  {
    var w1 := Admit(w, token, email, addedByLeader, invite).1;
    AdmitPreservesValid(w, token, email, addedByLeader, invite);
    forall k | Unique(w1.db.tokens, UnusedToken(token), k)
      ensures var t := w1.db.tokens[k].team;
        ActiveCount(w1.db, t) < w1.db.teams[t].seatLimit &&
        (forall i :: 0 <= i < |w1.db.members| && w1.db.members[i].team == t ==> w1.db.members[i].email != Lower(other))
        ==> Admit(w1, token, other, addedByLeader, invite).0 == Pass
    {
      AdmitDecision(w1, token, other, addedByLeader, invite, k);
    }
  }
}

=== FILE: inviteview.dfy ===
/** Recording that an invite link was opened. The token does not say who
    opened it, so every member row of the token's team still marked
    'invited' becomes 'viewed'. The token lookup ignores the used flag. */
module InviteView {
  import opened Wrappers
  import opened Query
  import opened Ledger

  datatype ViewError = MissingToken | UnknownToken

  /** The token lookup: the token's row, used or not. */
  function AnyToken(token: string): InviteToken -> bool
  {
    (k: InviteToken) => k.token == token
  }

  function InvitedIn(t: TeamId): Member -> bool
  {
    (m: Member) => m.team == t && m.inviteStatus == Invited
  }

  function MarkViewed(m: Member): Member
  {
    m.(inviteStatus := Viewed)
  }

  /** `db'` is `db` with the 'invited' rows of team `t` moved to 'viewed' and
      nothing else touched: not the other invite statuses, not other teams,
      not any row's status. */
  predicate ViewedOnly(db: Tables, db': Tables, t: TeamId)
  {
    && db'.teams == db.teams
    && db'.tokens == db.tokens
    && |db'.members| == |db.members|
    && forall i :: 0 <= i < |db.members| ==>
         && db'.members[i].(inviteStatus := db.members[i].inviteStatus) == db.members[i]
         && db'.members[i].inviteStatus ==
              (if db.members[i].team == t && db.members[i].inviteStatus == Invited then Viewed
               else db.members[i].inviteStatus)
  }

  function RecordView(db: Tables, token: string): (r: (Outcome<ViewError>, Tables))
    ensures r.0.Fail? ==> r.1 == db
    ensures r.0 == Fail(MissingToken) <==> token == ""
    ensures r.0 == Fail(UnknownToken) <==> token != "" && forall k :: !Unique(db.tokens, AnyToken(token), k)
    ensures r.0 == Pass ==> exists k :: Unique(db.tokens, AnyToken(token), k) && ViewedOnly(db, r.1, db.tokens[k].team)
  {
    if token == "" then (Fail(MissingToken), db)
    else
      match Single(db.tokens, AnyToken(token))
      case None => (Fail(UnknownToken), db)
      case Some(k) =>
        (Pass, db.(members := Update(db.members, InvitedIn(db.tokens[k].team), MarkViewed)))
  }

  /** After a view no member of the token's team is left 'invited'. */
  lemma NoInvitedLeft(db: Tables, token: string, k: nat)
    requires Unique(db.tokens, AnyToken(token), k)
    requires RecordView(db, token).0 == Pass
    ensures Count(RecordView(db, token).1.members, InvitedIn(db.tokens[k].team)) == 0
  {
    CountNone(RecordView(db, token).1.members, InvitedIn(db.tokens[k].team));
  }

  /** Recording a view twice is recording it once. */
  lemma RecordViewIdempotent(db: Tables, token: string)
    ensures RecordView(RecordView(db, token).1, token) == RecordView(db, token)
  {
    var r := RecordView(db, token);
    if r.0 == Pass {
      var k :| Unique(db.tokens, AnyToken(token), k);
      var t := db.tokens[k].team;
      assert Single(db.tokens, AnyToken(token)) == Some(k);
      assert Update(r.1.members, InvitedIn(t), MarkViewed) == r.1.members;
    }
  }

  lemma RecordViewPreservesValid(db: Tables, token: string)
    requires Valid(db)
    ensures Valid(RecordView(db, token).1)
  {
    SeatsUnchanged(db, RecordView(db, token).1);
  }
}

=== FILE: ledger.dfy ===
/** The membership ledger: the `teams`, `team_members` and `invite_tokens`
    tables the handlers read and write, the e-mail normalisation they apply,
    and the invariants the tables keep between requests.

    Rows are never physically deleted, so the position of a row in its
    append-only table serves as its primary key. */
module Ledger {
  import opened Wrappers
  import opened Query

  type TeamId = nat

  /** A community member's identifier on the community platform. */
  type CircleId = nat

  datatype AccessType = SubscriptionAccess | CourseAccess

  /** Coarse membership flag of a team or a member row. */
  datatype Status = Active | Revoked

  /** Fine-grained onboarding state of a member row, independent of its status. */
  datatype InviteStatus = Invited | Viewed | Opened | InviteActive | InviteRevoked

  datatype Team = Team(
    leaderEmail: string,
    customerRef: string,
    subscriptionRef: string,
    access: AccessType,
    seatLimit: nat,
    status: Status)

  datatype Member = Member(
    team: TeamId,
    email: string,
    circleId: Option<CircleId>,
    status: Status,
    inviteStatus: InviteStatus)

  datatype InviteToken = InviteToken(token: string, team: TeamId, used: bool)

  datatype Tables = Tables(teams: seq<Team>, members: seq<Member>, tokens: seq<InviteToken>)

  const Empty := Tables([], [], [])

  // ---- E-mail normalisation (`toLowerCase`, on the ASCII letters) ----

  predicate IsUpper(c: char)
  {
    'A' <= c <= 'Z'
  }

  predicate IsLower(s: string)
  {
    forall i :: 0 <= i < |s| ==> !IsUpper(s[i])
  }

  function LowerChar(c: char): (d: char)
    ensures !IsUpper(d)
    ensures !IsUpper(c) ==> d == c
  {
    if IsUpper(c) then (c as int + 32) as char else c
  }

  function Lower(s: string): (r: string)
    ensures |r| == |s|
    ensures IsLower(r)
    ensures IsLower(s) ==> r == s
    ensures forall i :: 0 <= i < |s| ==> LowerChar(r[i]) == LowerChar(s[i])
  {
    seq(|s|, i requires 0 <= i < |s| => LowerChar(s[i]))
  }

  // ---- Row filters the handlers use ----

  function InTeam(t: TeamId): Member -> bool
  {
    (m: Member) => m.team == t
  }

  function ActiveIn(t: TeamId): Member -> bool
  {
    (m: Member) => m.team == t && m.status == Active
  }

  /** The seats a team has in use: its members whose status is 'active'. */
  function ActiveCount(db: Tables, t: TeamId): nat
  {
    Count(db.members, ActiveIn(t))
  }

  // ---- Invariants of the tables ----

  /** Every invite token belongs to an existing team (foreign key). */
  predicate TokensReferTeams(db: Tables)
  {
    forall k :: 0 <= k < |db.tokens| ==> db.tokens[k].team < |db.teams|
  }

  /** Every member row belongs to an existing team (foreign key) and holds a
      lower-cased e-mail. */
  predicate MembersWellFormed(db: Tables)
  {
    forall i :: 0 <= i < |db.members| ==>
      db.members[i].team < |db.teams| && IsLower(db.members[i].email)
  }

  /** A team has at most one row per e-mail, whatever the rows' status. */
  predicate OneRowPerEmail(db: Tables)
  {
    forall i, j :: 0 <= i < j < |db.members| && db.members[i].team == db.members[j].team ==>
      db.members[i].email != db.members[j].email
  }

  /** No team has more active members than seats. */
  predicate WithinSeatLimits(db: Tables)
  {
    forall t :: 0 <= t < |db.teams| ==> ActiveCount(db, t) <= db.teams[t].seatLimit
  }

  predicate Valid(db: Tables)
  {
    TokensReferTeams(db) && MembersWellFormed(db) && OneRowPerEmail(db) && WithinSeatLimits(db)
  }

  lemma EmptyValid()
    ensures Valid(Empty)
  {
  }

  /** A change that keeps the teams' seat limits and which rows are active
      in which team keeps every seat count, so it keeps WithinSeatLimits. */
  lemma SeatsUnchanged(db: Tables, db': Tables)
    requires |db'.teams| == |db.teams| && |db'.members| == |db.members|
    requires forall t :: 0 <= t < |db.teams| ==> db'.teams[t].seatLimit == db.teams[t].seatLimit
    requires forall i :: 0 <= i < |db.members| ==>
      db'.members[i].team == db.members[i].team && db'.members[i].status == db.members[i].status
    requires WithinSeatLimits(db)
    ensures WithinSeatLimits(db')
    ensures forall t :: ActiveCount(db', t) == ActiveCount(db, t)
  {
    forall t
      ensures ActiveCount(db', t) == ActiveCount(db, t)
    {
      CountSame(db'.members, db.members, ActiveIn(t), ActiveIn(t));
    }
  }

  /** Appending a lower-cased row of an existing team, whose e-mail the team
      does not hold yet and which fits in the team's seats, keeps Valid. */
  lemma AppendPreservesValid(db: Tables, row: Member)
    requires Valid(db)
    requires row.team < |db.teams| && IsLower(row.email)
    requires forall i :: 0 <= i < |db.members| && db.members[i].team == row.team ==> db.members[i].email != row.email
    requires row.status == Active ==> ActiveCount(db, row.team) < db.teams[row.team].seatLimit
    ensures Valid(db.(members := db.members + [row]))
  {
    var db' := db.(members := db.members + [row]);
    forall u | 0 <= u < |db'.teams|
      ensures ActiveCount(db', u) <= db'.teams[u].seatLimit
    {
      CountAppend(db.members, row, ActiveIn(u));
    }
    forall i, j | 0 <= i < j < |db'.members| && db'.members[i].team == db'.members[j].team
      ensures db'.members[i].email != db'.members[j].email
    {
      assert db'.members[i] == db.members[i];
    }
  }
}

=== FILE: query.dfy ===
/** Table queries in the shape the handlers issue them against the relational
    store: the rows a filter selects, how many there are, the `.single()`
    lookup that yields a row only when exactly one row matches, and the
    bulk `update ... where` that rewrites every selected row. */
module Query {
  import opened Wrappers

  /** Positions of the rows `p` selects, in table order. */
  function Find<T>(s: seq<T>, p: T -> bool): (r: seq<nat>)
    ensures forall k :: 0 <= k < |r| ==> r[k] < |s| && p(s[r[k]])
    ensures forall i :: 0 <= i < |s| && p(s[i]) ==> i in r
    ensures forall k, l :: 0 <= k < l < |r| ==> r[k] < r[l]
    decreases |s|
  {
    if |s| == 0 then []
    else
      var init := Find(s[..|s| - 1], p);
      if p(s[|s| - 1]) then init + [|s| - 1] else init
  }

  /** The number of rows `p` selects (a `count: 'exact'` query). */
  function Count<T>(s: seq<T>, p: T -> bool): nat
  {
    |Find(s, p)|
  }

  /** The rows `p` selects, in table order. */
  function Select<T>(s: seq<T>, p: T -> bool): (r: seq<T>)
    ensures |r| == Count(s, p)
    ensures forall x :: x in r ==> x in s && p(x)
    ensures forall i :: 0 <= i < |s| && p(s[i]) ==> s[i] in r
  {
    var f := Find(s, p);
    var r := seq(|f|, k requires 0 <= k < |f| => s[f[k]]);
    assert forall i :: 0 <= i < |s| && p(s[i]) ==> exists k :: 0 <= k < |f| && f[k] == i && r[k] == s[i];
    r
  }

  /** Row `i` is the one and only row `p` selects. */
  predicate Unique<T>(s: seq<T>, p: T -> bool, i: int)
  {
    0 <= i < |s| && p(s[i]) && forall j :: 0 <= j < |s| && p(s[j]) ==> j == i
  }

  /** The `.single()` lookup: it yields a row only when exactly one row
      matches; with no match or with several, the data is null. */
  function Single<T>(s: seq<T>, p: T -> bool): (r: Option<nat>)
    ensures r.Some? ==> Unique(s, p, r.value)
    ensures r.None? ==> forall i :: !Unique(s, p, i)
  {
    var f := Find(s, p);
    if |f| == 1 then Some(f[0])
    else if |f| == 0 then None
    else
      assert f[0] < f[1] && p(s[f[0]]) && p(s[f[1]]);
      None
  }

  /** `update ... where p`: every selected row is rewritten by `f`, the others are kept. */
  function Update<T>(s: seq<T>, p: T -> bool, f: T -> T): (r: seq<T>)
    ensures |r| == |s|
    ensures forall i :: 0 <= i < |s| ==> r[i] == if p(s[i]) then f(s[i]) else s[i]
  {
    seq(|s|, i requires 0 <= i < |s| => if p(s[i]) then f(s[i]) else s[i])
  }

  /** The number of positions at which two equally long tables differ. */
  function Differences<T(==)>(a: seq<T>, b: seq<T>): nat
    requires |a| == |b|
    decreases |a|
  {
    if |a| == 0 then 0
    else Differences(a[..|a| - 1], b[..|b| - 1]) + (if a[|a| - 1] != b[|b| - 1] then 1 else 0)
  }

  /** Appending one row raises a count by one exactly when the row is selected. */
  lemma CountAppend<T>(s: seq<T>, x: T, p: T -> bool)
    ensures Count(s + [x], p) == Count(s, p) + (if p(x) then 1 else 0)
  {
    assert (s + [x])[..|s|] == s;
  }

  /** A count depends only on which positions are selected. */
  lemma {:induction false} CountSame<T>(s: seq<T>, u: seq<T>, p: T -> bool, q: T -> bool)
    requires |s| == |u|
    requires forall i :: 0 <= i < |s| ==> p(s[i]) == q(u[i])
    ensures Count(s, p) == Count(u, q)
    decreases |s|
  {
    if |s| > 0 {
      var n := |s| - 1;
      CountSame(s[..n], u[..n], p, q);
    }
  }

  /** No selected row, no count. */
  lemma {:induction false} CountNone<T>(s: seq<T>, p: T -> bool)
    requires forall i :: 0 <= i < |s| ==> !p(s[i])
    ensures Count(s, p) == 0
    decreases |s|
  {
    if |s| > 0 {
      CountNone(s[..|s| - 1], p);
    }
  }

  /** Selecting more rows never lowers a count. */
  lemma {:induction false} CountMono<T>(s: seq<T>, p: T -> bool, q: T -> bool)
    requires forall i :: 0 <= i < |s| && p(s[i]) ==> q(s[i])
    ensures Count(s, p) <= Count(s, q)
    decreases |s|
  {
    if |s| > 0 {
      CountMono(s[..|s| - 1], p, q);
    }
  }

  /** Rewriting one row changes a count by what that row contributes before and after. */
  lemma {:induction false} CountUpdate<T>(s: seq<T>, k: nat, x: T, p: T -> bool)
    requires k < |s|
    ensures Count(s[k := x], p) + (if p(s[k]) then 1 else 0)
         == Count(s, p) + (if p(x) then 1 else 0)
    decreases |s|
  {
    var n := |s| - 1;
    if k == n {
      assert s[k := x][..n] == s[..n];
    } else {
      assert s[k := x][..n] == s[..n][k := x];
      CountUpdate(s[..n], k, x, p);
    }
  }

  /** `.single()` gives the same answer on two tables that select the same positions. */
  lemma SingleSame<T>(s: seq<T>, u: seq<T>, p: T -> bool, q: T -> bool)
    requires |s| == |u|
    requires forall i :: 0 <= i < |s| ==> p(s[i]) == q(u[i])
    ensures Single(s, p) == Single(u, q)
  {
    assert forall i :: Unique(s, p, i) <==> Unique(u, q, i);
  }
}

=== FILE: removal.dfy ===
/** Removal of a member by the team leader: the active row of the team with
    the lower-cased e-mail is revoked, and the member is deleted from the
    community platform when the row holds a platform identifier. The row
    stays in the table, so a removed e-mail cannot be admitted to the same
    team again. */
module Removal {
  import opened Wrappers
  import opened Query
  import opened Ledger
  import opened Gateway
  import Invite

  datatype RemoveError = MissingField | MemberNotFound

  /** The member lookup: the team's active row with the e-mail. */
  function ActiveWithEmail(t: TeamId, email: string): Member -> bool
  {
    (m: Member) => m.team == t && m.email == email && m.status == Active
  }

  /** The platform after the removal of row `m`. */
  function Unlink(tags: Tags, m: Member): Tags
  {
    match m.circleId
    case None => tags
    case Some(id) => DeleteMember(tags, id)
  }

  function RemoveMember(w: World, teamId: Option<TeamId>, email: string): (r: (Outcome<RemoveError>, World))
    ensures r.0.Fail? ==> r.1 == w
    ensures r.0 == Fail(MissingField) <==> teamId.None? || email == ""
    ensures r.0 == Fail(MemberNotFound) <==>
      teamId.Some? && email != "" && forall i :: !Unique(w.db.members, ActiveWithEmail(teamId.value, Lower(email)), i)
    ensures r.0 == Pass ==> teamId.Some? && exists i :: (Unique(w.db.members, ActiveWithEmail(teamId.value, Lower(email)), i)
      && r.1.db.teams == w.db.teams
      && r.1.db.tokens == w.db.tokens
      && r.1.db.members == w.db.members[i := w.db.members[i].(status := Revoked)]
      && (w.db.members[i].circleId.None? ==> r.1.tags == w.tags)
      && (w.db.members[i].circleId.Some? ==> r.1.tags == DeleteMember(w.tags, w.db.members[i].circleId.value)))
  {
    if teamId.None? || email == "" then (Fail(MissingField), w)
    else
      match Single(w.db.members, ActiveWithEmail(teamId.value, Lower(email)))
      case None => (Fail(MemberNotFound), w)
      case Some(i) =>
        var m := w.db.members[i];
        (Pass, World(w.db.(members := w.db.members[i := m.(status := Revoked)]), Unlink(w.tags, m)))
  }

  /** A removal frees exactly one seat of the team. */
  lemma RemoveFreesOneSeat(w: World, t: TeamId, email: string)
    requires RemoveMember(w, Some(t), email).0 == Pass
    ensures ActiveCount(RemoveMember(w, Some(t), email).1.db, t) == ActiveCount(w.db, t) - 1
  {
    var i :| Unique(w.db.members, ActiveWithEmail(t, Lower(email)), i);
    CountUpdate(w.db.members, i, w.db.members[i].(status := Revoked), ActiveIn(t));
  }

  lemma RemovePreservesValid(w: World, teamId: Option<TeamId>, email: string)
    requires Valid(w.db)
    ensures Valid(RemoveMember(w, teamId, email).1.db)
  {
    var r := RemoveMember(w, teamId, email);
    if r.0 == Pass {
      var i :| Unique(w.db.members, ActiveWithEmail(teamId.value, Lower(email)), i);
      var x := w.db.members[i].(status := Revoked);
      forall u | 0 <= u < |r.1.db.teams|
        ensures ActiveCount(r.1.db, u) <= r.1.db.teams[u].seatLimit
      {
        CountUpdate(w.db.members, i, x, ActiveIn(u));
      }
    }
  }

  /** Revoked rows still block admission: after a removal, the removed
      e-mail cannot join the same team again through an active team's token. */
  lemma RemovalBlocksReadmission(w: World, t: TeamId, email: string, token: string, k: nat,
                                 addedByLeader: bool, invite: string -> Option<CircleId>)
    requires Valid(w.db)
    requires RemoveMember(w, Some(t), email).0 == Pass
    requires token != ""
    requires Unique(w.db.tokens, Invite.UnusedToken(token), k) && w.db.tokens[k].team == t
    requires w.db.teams[t].status == Active
    ensures var w1 := RemoveMember(w, Some(t), email).1;
      Invite.Admit(w1, token, email, addedByLeader, invite) == (Fail(Invite.AlreadyMember), w1)
  {
    var w1 := RemoveMember(w, Some(t), email).1;
    var i :| Unique(w.db.members, ActiveWithEmail(t, Lower(email)), i);
    RemovePreservesValid(w, Some(t), email);
    RemoveFreesOneSeat(w, t, email);
    assert w1.db.members[i].team == t && w1.db.members[i].email == Lower(email);
    Invite.AdmitDecision(w1, token, email, addedByLeader, invite, k);
  }
}

=== FILE: sync.dfy ===
/** Reconciliation of invite status against the community platform. Every
    row of the team whose invite status is not 'active' (whatever its status)
    is looked up by e-mail; a row whose first platform match has confirmed
    its account becomes 'active' and takes the platform's identifier. A
    failed or empty look-up skips the row. The platform's answers are
    supplied by the caller. */
module Sync {
  import opened Wrappers
  import opened Query
  import opened Ledger

  /** What the platform look-up by e-mail yields: a failure, no member, or
      the first matching member with whether it has confirmed its account. */
  datatype Lookup = Unreachable | NoMember | Found(id: CircleId, confirmed: bool)

  datatype SyncError = MissingTeam

  function Candidate(t: TeamId): Member -> bool
  {
    (m: Member) => m.team == t && m.inviteStatus != InviteActive
  }

  /** A candidate the platform reports as confirmed. */
  function Confirmed(t: TeamId, lookup: string -> Lookup): Member -> bool
  {
    (m: Member) => Candidate(t)(m) && lookup(m.email).Found? && lookup(m.email).confirmed
  }

  function SyncRow(t: TeamId, lookup: string -> Lookup, m: Member): Member
  {
    if Confirmed(t, lookup)(m) then m.(inviteStatus := InviteActive, circleId := Some(lookup(m.email).id))
    else m
  }

  function SyncStatus(db: Tables, teamId: Option<TeamId>, lookup: string -> Lookup): (r: (Result<nat, SyncError>, Tables))
    ensures teamId.None? ==> r == (Err(MissingTeam), db)
    ensures teamId.Some? ==>
      var t := teamId.value;
      && r.0.Ok?
      && r.0.value <= Count(db.members, Candidate(t))
      && r.1.teams == db.teams
      && r.1.tokens == db.tokens
      && |r.1.members| == |db.members|
      && (forall i :: 0 <= i < |db.members| ==>
            && r.1.members[i].team == db.members[i].team
            && r.1.members[i].email == db.members[i].email
            && r.1.members[i].status == db.members[i].status
            && (!Confirmed(t, lookup)(db.members[i]) ==> r.1.members[i] == db.members[i])
            && (Confirmed(t, lookup)(db.members[i]) ==>
                  r.1.members[i].inviteStatus == InviteActive
                  && r.1.members[i].circleId == Some(lookup(db.members[i].email).id)))
  {
    match teamId
    case None => (Err(MissingTeam), db)
    case Some(t) =>
      CountMono(db.members, Confirmed(t, lookup), Candidate(t));
      var rows := seq(|db.members|, i requires 0 <= i < |db.members| => SyncRow(t, lookup, db.members[i]));
      (Ok(Count(db.members, Confirmed(t, lookup))), db.(members := rows))
  }

  /** The loop of the handler: walk the team's rows in table order, look up
      each candidate and update the confirmed ones, counting the updates. */
  method RunSync(db: Tables, teamId: Option<TeamId>, lookup: string -> Lookup)
    returns (res: Result<nat, SyncError>, db': Tables)
    ensures (res, db') == SyncStatus(db, teamId, lookup)
  {
    if teamId.None? {
      return Err(MissingTeam), db;
    }
    var t := teamId.value;
    var rows := db.members;
    var updated := 0;
    var i := 0;
    while i < |rows|
      invariant 0 <= i <= |rows| == |db.members|
      invariant forall j :: 0 <= j < i ==> rows[j] == SyncRow(t, lookup, db.members[j])
      invariant forall j :: i <= j < |rows| ==> rows[j] == db.members[j]
      invariant updated == Count(db.members[..i], Confirmed(t, lookup))
    {
      var m := rows[i];
      assert db.members[..i + 1] == db.members[..i] + [m];
      CountAppend(db.members[..i], m, Confirmed(t, lookup));
      if m.team == t && m.inviteStatus != InviteActive {
        var found := lookup(m.email);
        if found.Found? && found.confirmed {
          rows := rows[i := m.(inviteStatus := InviteActive, circleId := Some(found.id))];
          updated := updated + 1;
        }
      }
      i := i + 1;
    }
    assert db.members[..i] == db.members;
    assert rows == seq(|db.members|, j requires 0 <= j < |db.members| => SyncRow(t, lookup, db.members[j]));
    res, db' := Ok(updated), db.(members := rows);
  }

  /** Every row a sync activates differs from what it was, and no other row does. */
  lemma {:induction false} CountIsChangedRows(rows: seq<Member>, synced: seq<Member>, t: TeamId, lookup: string -> Lookup)
    requires |synced| == |rows|
    requires forall i :: 0 <= i < |rows| ==> synced[i] == SyncRow(t, lookup, rows[i])
    ensures Differences(rows, synced) == Count(rows, Confirmed(t, lookup))
    decreases |rows|
  {
    if |rows| > 0 {
      var n := |rows| - 1;
      CountIsChangedRows(rows[..n], synced[..n], t, lookup);
    }
  }

  /** The count the handler returns is the number of rows it changed. */
  lemma SyncCountsChanges(db: Tables, t: TeamId, lookup: string -> Lookup)
    ensures var r := SyncStatus(db, Some(t), lookup);
      r.0 == Ok(Differences(db.members, r.1.members))
  {
    CountIsChangedRows(db.members, SyncStatus(db, Some(t), lookup).1.members, t, lookup);
  }

  /** With the same look-up answers, a second run changes nothing and
      reports zero: every row the first run could activate is active. */
  lemma SyncIdempotent(db: Tables, t: TeamId, lookup: string -> Lookup)
    ensures var r1 := SyncStatus(db, Some(t), lookup);
      SyncStatus(r1.1, Some(t), lookup) == (Ok(0), r1.1)
  {
    var r1 := SyncStatus(db, Some(t), lookup);
    CountNone(r1.1.members, Confirmed(t, lookup));
    assert seq(|r1.1.members|, i requires 0 <= i < |r1.1.members| => SyncRow(t, lookup, r1.1.members[i])) == r1.1.members;
  }

  /** A row the platform does not confirm (failed look-up, no member, or an
      unconfirmed one) keeps its invite status and identifier. */
  lemma UnconfirmedRowUnchanged(db: Tables, t: TeamId, lookup: string -> Lookup, i: nat)
    requires i < |db.members|
    requires !(lookup(db.members[i].email).Found? && lookup(db.members[i].email).confirmed)
    ensures SyncStatus(db, Some(t), lookup).1.members[i] == db.members[i]
  {
  }

  lemma SyncPreservesValid(db: Tables, teamId: Option<TeamId>, lookup: string -> Lookup)
    requires Valid(db)
    ensures Valid(SyncStatus(db, teamId, lookup).1)
  {
    SeatsUnchanged(db, SyncStatus(db, teamId, lookup).1);
  }
}

=== FILE: system.dfy ===
/** The handlers together: every request the deployment serves, applied one
    after another to the ledger and the platform. Requests run to completion
    one at a time; concurrent requests are not part of this model. */
module System {
  import opened Wrappers
  import opened Ledger
  import opened Gateway
  import Tokens
  import Webhook
  import Invite
  import Removal
  import InviteView
  import Sync
  import Dashboard

  datatype Request =
    | Billing(event: Option<Webhook.Event>, ext: Webhook.Externals)
    | Join(token: string, email: string, addedByLeader: bool, invite: string -> Option<CircleId>)
    | Remove(teamId: Option<TeamId>, email: string)
    | ViewInvite(token: string)
    | SyncTeam(teamId: Option<TeamId>, lookup: string -> Sync.Lookup)
    | ReadDashboard(email: string)

  /** The random source only ever yields valid draws. */
  predicate WellDrawn(req: Request)
  {
    req.Billing? ==> Tokens.ValidDraws(req.ext.draws)
  }

  /** The world after one request. */
  function Step(w: World, req: Request): (r: World)
    requires Valid(w.db) && WellDrawn(req)
    ensures Valid(r.db)
    ensures req.ReadDashboard? ==> r == w
  {
    match req
    case Billing(event, ext) =>
      Webhook.HandlePreservesValid(w, event, ext);
      Webhook.Handle(w, event, ext).1
    case Join(token, email, addedByLeader, invite) =>
      Invite.AdmitPreservesValid(w, token, email, addedByLeader, invite);
      Invite.Admit(w, token, email, addedByLeader, invite).1
    case Remove(teamId, email) =>
      Removal.RemovePreservesValid(w, teamId, email);
      Removal.RemoveMember(w, teamId, email).1
    case ViewInvite(token) =>
      InviteView.RecordViewPreservesValid(w.db, token);
      World(InviteView.RecordView(w.db, token).1, w.tags)
    case SyncTeam(teamId, lookup) =>
      Sync.SyncPreservesValid(w.db, teamId, lookup);
      World(Sync.SyncStatus(w.db, teamId, lookup).1, w.tags)
    case ReadDashboard(email) =>
      w
  }

  /** The world after a sequence of requests, served in order. */
  function Run(w: World, reqs: seq<Request>): (r: World)
    requires Valid(w.db)
    requires forall i :: 0 <= i < |reqs| ==> WellDrawn(reqs[i])
    ensures Valid(r.db)
    decreases |reqs|
  {
    if |reqs| == 0 then w else Run(Step(w, reqs[0]), reqs[1..])
  }

  /** From an empty ledger, at every point in any sequence of requests, no
      team has more active members than seats. */
  lemma SeatLimitAlwaysHolds(tags: Tags, reqs: seq<Request>)
    requires forall i :: 0 <= i < |reqs| ==> WellDrawn(reqs[i])
    ensures forall t :: 0 <= t < |Run(World(Empty, tags), reqs).db.teams| ==>
      ActiveCount(Run(World(Empty, tags), reqs).db, t) <= Run(World(Empty, tags), reqs).db.teams[t].seatLimit
  {
    EmptyValid();
  }

  /** A leader whose billing e-mail holds an upper-case letter gets a team
      that the dashboard never lists, because the team stores the e-mail as
      given while the dashboard asks for it lower-cased. */
  lemma MixedCaseLeaderNeverSeesTeam(w: World, sub: Webhook.Subscription, ext: Webhook.Externals, query: string)
    requires Tokens.ValidDraws(ext.draws)
    requires Webhook.IsTeamProduct(sub) && ext.teamInsertOk
    requires !IsLower(ext.emailOf(sub.customer))
    ensures var w1 := Webhook.Created(w, sub, ext);
      var d := Dashboard.Dashboard(w1.db, query);
      d.Ok? ==> forall v :: v in d.value ==> v.id != |w.db.teams|
  {
    var w1 := Webhook.Created(w, sub, ext);
    Dashboard.MixedCaseLeaderHidden(w1.db, query, |w.db.teams|);
  }
}

=== FILE: tokens.dfy ===
/** Invite-token generation: eight characters, each picked from a
    36-character alphabet by scaling a uniform draw from [0, 1). The draws
    are supplied by the caller in place of the platform's random source. */
module Tokens {

  const Alphabet: string := "abcdefghijklmnopqrstuvwxyz0123456789"
  const TokenLength: nat := 8

  /** Draws the random source can produce: eight values in [0, 1). */
  predicate ValidDraws(draws: seq<real>)
  {
    |draws| == TokenLength && forall i :: 0 <= i < |draws| ==> 0.0 <= draws[i] < 1.0
  }

  /** A token is a string the generator can produce. */
  predicate IsToken(t: string)
  {
    |t| == TokenLength && forall i :: 0 <= i < |t| ==> t[i] in Alphabet
  }

  /** The alphabet position a draw selects: the draw scaled by the alphabet
      size and rounded down. */
  function Pick(draw: real): (k: nat)
    requires 0.0 <= draw < 1.0
    ensures k < |Alphabet|
    ensures k as real <= draw * |Alphabet| as real < k as real + 1.0
  {
    (draw * |Alphabet| as real).Floor
  }

  function GenerateToken(draws: seq<real>): (t: string)
    requires ValidDraws(draws)
    ensures IsToken(t)
  {
    seq(TokenLength, i requires 0 <= i < TokenLength => Alphabet[Pick(draws[i])])
  }

  /** The first position of `c` in `s`. */
  function IndexOf(s: string, c: char): (k: nat)
    requires c in s
    ensures k < |s| && s[k] == c
  {
    if s[0] == c then 0 else assert c in s[1..]; 1 + IndexOf(s[1..], c)
  }

  /** Every token the alphabet allows is produced by some draws: the
      generator misses no token. */
  lemma GenerateReachesEveryToken(t: string)
    requires IsToken(t)
    ensures exists draws :: ValidDraws(draws) && GenerateToken(draws) == t
  {
    assert |Alphabet| == 36;
    var draws := seq(TokenLength, i requires 0 <= i < TokenLength => IndexOf(Alphabet, t[i]) as real / 36.0);
    forall i | 0 <= i < TokenLength
      ensures 0.0 <= draws[i] < 1.0 && Pick(draws[i]) == IndexOf(Alphabet, t[i])
    {
      var k := IndexOf(Alphabet, t[i]);
      assert draws[i] == k as real / 36.0;
      assert draws[i] * 36.0 == k as real;
    }
    assert ValidDraws(draws);
    assert GenerateToken(draws) == t;
  }
}

=== FILE: webhook.dfy ===
/** The billing webhook: a subscription for the team product creates a team
    with its invite token and tags the leader; its deletion revokes the team
    and every member row of it and downgrades the members that were active.
    Signature verification is an input: an event that failed it arrives as
    None. The customer's e-mail, the random draws, the outcome of the team
    insert and the platform's e-mail look-up are supplied by the caller. */
module Webhook {
  import opened Wrappers
  import opened Query
  import opened Ledger
  import opened Gateway
  import Tokens

  const TeamsProduct: string := "prod_U2vN9o0joPvgXD"
  const CreatedEvent: string := "customer.subscription.created"
  const DeletedEvent: string := "customer.subscription.deleted"
  const TeamSeatLimit: nat := 5

  /** The part of a billing subscription the handlers read; `firstProduct`
      is the product of the first item, when there is one. */
  datatype Subscription = Subscription(id: string, customer: string, firstProduct: Option<string>)

  datatype Event = Event(kind: string, subscription: Subscription)

  datatype Reply = Received | BadSignature

  /** Answers of the calls the handlers make to code outside this model. */
  datatype Externals = Externals(
    emailOf: string -> string,
    draws: seq<real>,
    teamInsertOk: bool,
    lookup: string -> Option<CircleId>)

  predicate IsTeamProduct(sub: Subscription)
  {
    sub.firstProduct == Some(TeamsProduct)
  }

  function BySubscription(ref: string): Team -> bool
  {
    (t: Team) => t.subscriptionRef == ref
  }

  function Revoke(m: Member): Member
  {
    m.(status := Revoked)
  }

  // ---- subscription created ----

  function Created(w: World, sub: Subscription, ext: Externals): (r: World)
    requires Tokens.ValidDraws(ext.draws)
    ensures !IsTeamProduct(sub) || !ext.teamInsertOk ==> r == w
    ensures IsTeamProduct(sub) && ext.teamInsertOk ==>
      && |r.db.teams| == |w.db.teams| + 1
      && r.db.teams[..|w.db.teams|] == w.db.teams
      && r.db.teams[|w.db.teams|] == Team(ext.emailOf(sub.customer), sub.customer, sub.id,
                                           SubscriptionAccess, TeamSeatLimit, Active)
      && r.db.members == w.db.members
      && |r.db.tokens| == |w.db.tokens| + 1
      && r.db.tokens[..|w.db.tokens|] == w.db.tokens
      && r.db.tokens[|w.db.tokens|].team == |w.db.teams|
      && !r.db.tokens[|w.db.tokens|].used
      && Tokens.IsToken(r.db.tokens[|w.db.tokens|].token)
      && r.tags == AddTagByEmail(w.tags, ext.emailOf(sub.customer), TeamsLeaderTag, ext.lookup)
  {
    if !IsTeamProduct(sub) then w
    else
      var leader := ext.emailOf(sub.customer);
      var token := Tokens.GenerateToken(ext.draws);
      if !ext.teamInsertOk then w
      else
        var id := |w.db.teams|;
        var team := Team(leader, sub.customer, sub.id, SubscriptionAccess, TeamSeatLimit, Active);
        var db := w.db.(teams := w.db.teams + [team],
                        tokens := w.db.tokens + [InviteToken(token, id, false)]);
        World(db, AddTagByEmail(w.tags, leader, TeamsLeaderTag, ext.lookup))
  }

  lemma CreatedPreservesValid(w: World, sub: Subscription, ext: Externals)
    requires Tokens.ValidDraws(ext.draws)
    requires Valid(w.db)
    ensures Valid(Created(w, sub, ext).db)
    ensures IsTeamProduct(sub) && ext.teamInsertOk ==> ActiveCount(Created(w, sub, ext).db, |w.db.teams|) == 0
  {
    var r := Created(w, sub, ext);
    if IsTeamProduct(sub) && ext.teamInsertOk {
      var n := |w.db.teams|;
      CountNone(r.db.members, ActiveIn(n));
      forall t | 0 <= t < |r.db.teams|
        ensures ActiveCount(r.db, t) <= r.db.teams[t].seatLimit
      {
        if t == n {
          CountNone(r.db.members, ActiveIn(t));
        } else {
          assert r.db.teams[t] == w.db.teams[t];
        }
      }
    }
  }

  // ---- subscription deleted ----

  /** Some row of `rows` resolves to platform member `x`. */
  predicate Downgraded(rows: seq<Member>, x: CircleId, lookup: string -> Option<CircleId>)
  {
    exists i :: 0 <= i < |rows| && ResolveId(rows[i].circleId, rows[i].email, lookup) == Some(x)
  }

  /** Apply the FreeAccess tag to each row in turn: exactly the platform
      members some row resolves to end with FreeAccess as their only tag. */
  function DowngradeAll(tags: Tags, rows: seq<Member>, lookup: string -> Option<CircleId>): (r: Tags)
    ensures r.Keys == tags.Keys
    ensures forall x :: x in tags ==>
      r[x] == (if Downgraded(rows, x, lookup) then [FreeAccessTag] else tags[x])
    decreases |rows|
  {
    if |rows| == 0 then tags
    else
      var rest := rows[1..];
      assert forall x: CircleId :: Downgraded(rows, x, lookup) <==>
        ResolveId(rows[0].circleId, rows[0].email, lookup) == Some(x) || Downgraded(rest, x, lookup)
      by {
        forall x: CircleId | Downgraded(rest, x, lookup)
          ensures Downgraded(rows, x, lookup)
        {
          var i :| 0 <= i < |rest| && ResolveId(rest[i].circleId, rest[i].email, lookup) == Some(x);
          assert rows[i + 1] == rest[i];
        }
        forall x: CircleId | Downgraded(rows, x, lookup) && ResolveId(rows[0].circleId, rows[0].email, lookup) != Some(x)
          ensures Downgraded(rest, x, lookup)
        {
          var i :| 0 <= i < |rows| && ResolveId(rows[i].circleId, rows[i].email, lookup) == Some(x);
          assert rest[i - 1] == rows[i];
        }
      }
      DowngradeAll(ApplyFreeAccess(tags, rows[0].email, rows[0].circleId, lookup), rest, lookup)
  }

  function Deleted(w: World, sub: Subscription, lookup: string -> Option<CircleId>): (r: World)
    ensures !IsTeamProduct(sub) ==> r == w
    ensures IsTeamProduct(sub) && (forall t :: !Unique(w.db.teams, BySubscription(sub.id), t)) ==> r == w
    ensures forall t :: IsTeamProduct(sub) && Unique(w.db.teams, BySubscription(sub.id), t) ==>
      && r.db.teams == w.db.teams[t := w.db.teams[t].(status := Revoked)]
      && |r.db.members| == |w.db.members|
      && (forall i :: 0 <= i < |w.db.members| ==>
            r.db.members[i] == if w.db.members[i].team == t then Revoke(w.db.members[i]) else w.db.members[i])
      && r.db.tokens == w.db.tokens
      && r.tags.Keys == w.tags.Keys
      && (forall x :: x in w.tags ==>
            r.tags[x] == if Downgraded(Select(w.db.members, ActiveIn(t)), x, lookup) then [FreeAccessTag] else w.tags[x])
  {
    if !IsTeamProduct(sub) then w
    else
      match Single(w.db.teams, BySubscription(sub.id))
      case None => w
      case Some(t) =>
        var tags := DowngradeAll(w.tags, Select(w.db.members, ActiveIn(t)), lookup);
        var members := Update(w.db.members, InTeam(t), Revoke);
        var teams := w.db.teams[t := w.db.teams[t].(status := Revoked)];
        World(Tables(teams, members, w.db.tokens), tags)
  }

  /** On deletion the FreeAccess tag reaches exactly the platform members
      that a member row of the team, active before the revocation, resolves to. */
  lemma DeletedDowngradesOnlyActive(w: World, sub: Subscription, lookup: string -> Option<CircleId>, t: TeamId, x: CircleId)
    requires IsTeamProduct(sub) && Unique(w.db.teams, BySubscription(sub.id), t)
    requires x in w.tags
    ensures Deleted(w, sub, lookup).tags[x] ==
      if exists i :: 0 <= i < |w.db.members| && w.db.members[i].team == t && w.db.members[i].status == Active
                     && ResolveId(w.db.members[i].circleId, w.db.members[i].email, lookup) == Some(x)
      then [FreeAccessTag] else w.tags[x]
  {
    var rows := Select(w.db.members, ActiveIn(t));
    if Downgraded(rows, x, lookup) {
      var k :| 0 <= k < |rows| && ResolveId(rows[k].circleId, rows[k].email, lookup) == Some(x);
      assert rows[k] in rows;
    }
    if exists i :: 0 <= i < |w.db.members| && w.db.members[i].team == t && w.db.members[i].status == Active
                   && ResolveId(w.db.members[i].circleId, w.db.members[i].email, lookup) == Some(x) {
      var i :| 0 <= i < |w.db.members| && w.db.members[i].team == t && w.db.members[i].status == Active
               && ResolveId(w.db.members[i].circleId, w.db.members[i].email, lookup) == Some(x);
      assert ActiveIn(t)(w.db.members[i]);
      assert w.db.members[i] in rows;
    }
  }

  /** The revoked team is left with no active member. */
  lemma DeletedEmptiesTeam(w: World, sub: Subscription, lookup: string -> Option<CircleId>, t: TeamId)
    requires IsTeamProduct(sub) && Unique(w.db.teams, BySubscription(sub.id), t)
    ensures ActiveCount(Deleted(w, sub, lookup).db, t) == 0
  {
    CountNone(Deleted(w, sub, lookup).db.members, ActiveIn(t));
  }

  lemma DeletedPreservesValid(w: World, sub: Subscription, lookup: string -> Option<CircleId>)
    requires Valid(w.db)
    ensures Valid(Deleted(w, sub, lookup).db)
  {
    if IsTeamProduct(sub) {
      match Single(w.db.teams, BySubscription(sub.id))
      case None =>
      case Some(t) =>
        var r := Deleted(w, sub, lookup);
        forall u | 0 <= u < |r.db.teams|
          ensures ActiveCount(r.db, u) <= r.db.teams[u].seatLimit
        {
          if u == t {
            DeletedEmptiesTeam(w, sub, lookup, t);
          } else {
            CountSame(r.db.members, w.db.members, ActiveIn(u), ActiveIn(u));
          }
        }
    }
  }

  /** A second deletion of the same subscription changes nothing: the team
      still matches, and no member of it is active any more. */
  lemma DeletedIdempotent(w: World, sub: Subscription, lookup: string -> Option<CircleId>)
    ensures Deleted(Deleted(w, sub, lookup), sub, lookup) == Deleted(w, sub, lookup)
  {
    if IsTeamProduct(sub) {
      match Single(w.db.teams, BySubscription(sub.id))
      case None =>
      case Some(t) =>
        var w1 := Deleted(w, sub, lookup);
        SingleSame(w1.db.teams, w.db.teams, BySubscription(sub.id), BySubscription(sub.id));
        CountNone(w1.db.members, ActiveIn(t));
        assert Select(w1.db.members, ActiveIn(t)) == [];
        assert Update(w1.db.members, InTeam(t), Revoke) == w1.db.members;
    }
  }

  /** Creation is not idempotent: a created event delivered twice makes two
      teams for one subscription, and then `.single()` finds no team, so the
      deletion event is ignored and both teams stay active. */
  lemma DuplicateCreatedBlocksDeletion(w: World, sub: Subscription, ext1: Externals, ext2: Externals,
                                       lookup: string -> Option<CircleId>)
    requires Tokens.ValidDraws(ext1.draws) && Tokens.ValidDraws(ext2.draws)
    requires IsTeamProduct(sub) && ext1.teamInsertOk && ext2.teamInsertOk
    requires forall t :: 0 <= t < |w.db.teams| ==> w.db.teams[t].subscriptionRef != sub.id
    ensures var w2 := Created(Created(w, sub, ext1), sub, ext2);
      && Deleted(w2, sub, lookup) == w2
      && w2.db.teams[|w.db.teams|].status == Active
      && w2.db.teams[|w.db.teams| + 1].status == Active
  {
    var w1 := Created(w, sub, ext1);
    var w2 := Created(w1, sub, ext2);
    var n := |w.db.teams|;
    assert w2.db.teams[n] == w1.db.teams[n];
    assert BySubscription(sub.id)(w2.db.teams[n]);
    assert BySubscription(sub.id)(w2.db.teams[n + 1]);
    assert forall t :: !Unique(w2.db.teams, BySubscription(sub.id), t);
  }

  // ---- dispatch ----

  /** The webhook entry point: unverified events are rejected, the created
      and deleted events are handled, every other event is acknowledged and
      ignored (the update event among them). */
  function Handle(w: World, event: Option<Event>, ext: Externals): (r: (Reply, World))
    requires Tokens.ValidDraws(ext.draws)
    ensures event.None? ==> r == (BadSignature, w)
    ensures event.Some? ==> r.0 == Received
    ensures event.Some? && event.value.kind != CreatedEvent && event.value.kind != DeletedEvent ==> r.1 == w
    ensures event.Some? && !IsTeamProduct(event.value.subscription) ==> r.1 == w
    ensures event.Some? && event.value.kind == CreatedEvent ==> r.1 == Created(w, event.value.subscription, ext)
    ensures event.Some? && event.value.kind == DeletedEvent ==> r.1 == Deleted(w, event.value.subscription, ext.lookup)
  {
    match event
    case None => (BadSignature, w)
    case Some(e) =>
      if e.kind == CreatedEvent then (Received, Created(w, e.subscription, ext))
      else if e.kind == DeletedEvent then (Received, Deleted(w, e.subscription, ext.lookup))
      else (Received, w)
  }

  lemma HandlePreservesValid(w: World, event: Option<Event>, ext: Externals)
    requires Tokens.ValidDraws(ext.draws)
    requires Valid(w.db)
    ensures Valid(Handle(w, event, ext).1.db)
  {
    if event.Some? {
      CreatedPreservesValid(w, event.value.subscription, ext);
      DeletedPreservesValid(w, event.value.subscription, ext.lookup);
    }
  }
}

=== FILE: wrappers.dfy ===
/** The optional values and handler outcomes every module shares. */
module Wrappers {

  datatype Option<+T> = None | Some(value: T)

  /** The outcome of a handler that returns no value. */
  datatype Outcome<+E> = Pass | Fail(error: E)

  /** The outcome of a handler that returns a value. */
  datatype Result<+R, +E> = Ok(value: R) | Err(error: E)
}
